=== FILE: README.md ===
# CipherMan session model

A Dafny model of the per-connection session manager `CipherMan` of aioshadowsocks
(`shadowsocks/cipherman.py`). A port can serve several users. The wire protocol
carries no cleartext identity, so the session works out who is connecting by
trial decryption:

- it buffers incoming bytes until the first packet is long enough to authenticate
  (salt + 2 + tag bytes on TCP, salt + tag on UDP);
- it rejects a salt already in the process-wide replay set, and records a fresh salt
  before trying anyone;
- it tries each user's key in list order. A "MAC check failed" error means "wrong user,
  try the next one"; any other error ends the attempt;
- it refuses a session where nobody matched or the matched user is disabled;
- when the match was not the first user tried, it promotes the matched user's
  `access_order` past the first user's;
- afterwards it encrypts and decrypts for the bound user. A send charges its
  plaintext length to both of that user's traffic counters, and a receive charges the
  length of the plaintext it returns (a receive through a kept stream cipher charges the
  ciphertext length). TCP keeps one stream cipher. UDP `encrypt` builds a fresh cipher
  for every packet, and a bound UDP `decrypt` builds none: it goes back through
  identification's tail and returns the stored first plaintext, so it charges that
  plaintext's length again.

The cryptography is an abstract `Oracle` (`crypto.dfy`). It has stream `decrypt` and
`encrypt` on a live `Cipher`, and datagram `unpack` and `pack` on a password.
Decryption returns one of three results: `Opened(plain)`, `MacFailed` or
`OtherFailure(reason)`. A live cipher is its password together with the log of every
encrypt and decrypt call it has served, with the bytes of each, oldest first. The
oracle receives that log, so a cipher's output may depend on every byte it has
processed before, as a nonce counter or keystream position does. A decrypt is logged
whatever its outcome.

Every operation returns the state it leaves behind and its result, also on failure. The
source changes the session before it raises: it extends the buffer, burns the salt,
seeds `last_access_user`, keeps the TCP cipher before checking `enable`, and charges
traffic before a bound decrypt.

Modules:

- `Wrappers`: `Option` and `Result`.
- `Crypto`: bytes, the transport flag, cipher classes, the oracle.
- `Users`: user records.
- `TrialSearch`: the trial-decryption loop.
- `CipherMan`: the session and its operations.
- `SessionProperties`: properties that span several calls.

The model follows the code as written, including these behaviours:

- Short input is not a clean "need more data". `_init_cipher_and_decrypt_first_data`
  returns `None` and `decrypt` then takes `len(None)`, so `Decrypt` yields
  `NoneHasNoLength`.
- The code does not check that all users of a port share one method. It takes the
  preset user's method, or else the first user's.
- When a user is preset (a single-user port), identification and the replay check are
  skipped. The stored first plaintext is then still `None`, so a run of receives fails
  on every call (`PresetUserReceivesAlwaysFail`, `PresetUserSkipsReplayCheck`). On TCP,
  an `encrypt` first creates a stream cipher from the preset user's password, and later
  receives go to that cipher (`PresetTcpDecryptsAfterSend`).
- UDP never stores a cipher. Once a UDP session is bound, each long-enough packet
  returns the first packet's plaintext again, charges its length again, and repeats
  the promotion when the bound user is not the first (`UdpRepeatsFirstPlaintext`,
  `UdpBoundRunRepeatsFirstPlaintext`).
- On TCP the trial's cipher is kept before the `enable` check. After a disabled-user
  error, a further `decrypt` uses that cipher without checking again
  (`DisabledStreamUserKeepsCipher`).

## Model

| member | source | states |
|---|---|---|
| CipherMan.New | shadowsocks/cipherman.py:39-66 | The method comes from the preset user, else from the first user. An empty list with no preset user is an error, and so is a method with no cipher class. The first-packet threshold is salt + 2 + tag on TCP and salt + tag otherwise. The new session has no cipher, no buffer, no first data and no last access user. |
| CipherMan.ForPort | shadowsocks/cipherman.py:68-75 | A user is preset exactly when the port has one user, and it is that user. Construction fails exactly when the list is empty or the first user's method is unsupported. |
| CipherMan.SaltOf | shadowsocks/cipherman.py:82 | The salt is a prefix of the blob, SALT_SIZE bytes long, or the whole blob when it is shorter (Python slicing). |
| TrialSearch.Search | shadowsocks/cipherman.py:89-108 | Each trial (`TryUser`, lines 93-102) builds a fresh cipher from the user's password and calls `decrypt` on TCP, `unpack` on UDP. A match is at a user whose trial opened the blob, and every user before it failed the MAC check. A fatal outcome is at a user whose trial failed otherwise, after MAC failures only. No match means every user failed the MAC check. |
| TrialSearch.SearchStopsAtFirstNonMacFailure | shadowsocks/cipherman.py:90-107 | Converse of Search: the first user whose trial is not a MAC failure decides the outcome, a match with its plaintext or a fatal error with its reason. |
| TrialSearch.NoMatchIffAllMacFail | shadowsocks/cipherman.py:90-107 | Nobody matches if and only if every user's trial fails the MAC check. |
| TrialSearch.FindByTrial | shadowsocks/cipherman.py:88-107 | The counting loop produces the Search outcome. Its attempt count is the stopping index + 1, or the number of users if nobody matched, and never exceeds the number of users. |
| CipherMan.Promote | shadowsocks/cipherman.py:131-137 | The promoted user's access order becomes the first user's plus one. Its other fields and every other user are unchanged. |
| CipherMan.FindAccessUser | shadowsocks/cipherman.py:78-108 | A salt already seen raises before any user is tried, and nothing changes. A fresh salt is added to the set and stays there whatever the trials give. The first user tried becomes the last access user. A match binds the user and stores its plaintext. On TCP the match also keeps the trial's cipher, whose log holds that one decrypt of the blob; on UDP no cipher is kept. No match binds nobody, and a fatal trial error propagates. |
| CipherMan.InitCipherAndDecryptFirstData | shadowsocks/cipherman.py:114-139 | Below the threshold, only the buffer grows, by exactly the new data, and the result is None. Otherwise the buffer is emptied. Any plaintext released belongs to a bound user who is enabled, and it is that session's first data. |
| CipherMan.RecordUserTraffic | shadowsocks/cipherman.py:141-143 | With a bound user, both its counters grow by the byte count. Nothing else changes, and nothing at all changes without a bound user. |
| CipherMan.Encrypt | shadowsocks/cipherman.py:145-155 | The plaintext length is charged before anything else. With no user bound, encryption is an error. UDP packs with the bound user's password on every call and keeps no cipher. TCP reuses its cipher, which then logs the plaintext, or creates one from the bound user's password if it has none. Only the counters and the cipher change. |
| CipherMan.Decrypt | shadowsocks/cipherman.py:157-166 | Without a cipher and below the threshold, only the buffer grows, and the call fails on the None. With a cipher, the ciphertext length is charged and the replay set is untouched. The call succeeds exactly when the retained cipher opens the data, and it returns that plaintext. The same cipher, with the data appended to its log, is kept whether or not the call succeeds. The replay set only grows. |
| SessionProperties.IdentifyOutcome | shadowsocks/cipherman.py:78-139 | First packet of a session with no user: a replayed salt is rejected, with only the buffer emptied, a fresh salt is remembered, and the trial outcome is then carried through as follows. No match means no valid user. A fatal trial error propagates. A match binds the user and stores its plaintext as the first data. A disabled match gets no plaintext. An enabled match returns its plaintext and charges its length. It is promoted past the first user exactly when it is not the first user, and no other user changes. |
| SessionProperties.SaltNeverAcceptedTwice | shadowsocks/cipherman.py:81-86 | Once any session has taken a blob to identification, its salt is in the set. A later blob with the same salt, in any session with no bound user, is rejected as replayed before any user is tried. Sessions with a preset user never check the salt (PresetUserSkipsReplayCheck). |
| SessionProperties.ShortInputOnlyBuffers | shadowsocks/cipherman.py:114-120 | Any sequence of receives whose total stays below the threshold only appends to the buffer. No salt is recorded, no user is bound, and every call ends in the None error. |
| SessionProperties.TrafficIsSumOfPayloads | shadowsocks/cipherman.py:141-166 | Once a stream cipher is kept, any sequence of calls grows both of the bound user's counters by the total bytes handed in. This holds even for decrypts that fail. No other user changes. |
| SessionProperties.StreamCipherLogsEveryCall | shadowsocks/cipherman.py:153-166 | The kept stream cipher is never replaced or reset. It keeps its password, and after any sequence of calls its log is the old log followed by one entry per call, in order: the plaintext of each send and the ciphertext of each receive, failed receives included. |
| SessionProperties.PresetUserReceivesAlwaysFail | shadowsocks/cipherman.py:122-139 | With a preset user and no cipher or first data, every call of a run made only of receives fails, and the replay set is untouched. |
| SessionProperties.PresetUserSkipsReplayCheck | shadowsocks/cipherman.py:122-139 | With a preset user and no cipher, a long-enough packet is never checked against the replay set, whatever salts were seen. The set stays unchanged, the buffer is emptied, and the call fails with the disabled-user error or on `len(None)`. |
| SessionProperties.PresetTcpDecryptsAfterSend | shadowsocks/cipherman.py:153-166 | On a preset TCP session, a send creates the stream cipher from the preset user's password. A following receive succeeds exactly when that cipher, having encrypted the sent bytes, opens the data, and it returns that plaintext. |
| SessionProperties.SingleUserPortReceivesAlwaysFail | shadowsocks/cipherman.py:69-75 | A port with a single supported user gets a session on which every call of a run made only of receives fails. |
| SessionProperties.UdpRepeatsFirstPlaintext | shadowsocks/cipherman.py:114-163 | One long-enough packet on a bound UDP session records no salt, empties the buffer, and changes nothing else in the session but the users: it stays bound to the same user with the same first plaintext and no cipher. A disabled user gets the disabled-user error and no user changes. An enabled user gets the stored first plaintext back, stays enabled with the same password, and both its counters grow by that plaintext's length. Its promotion past the first user is applied again exactly when a user was tried before and it is not the first one. No other user changes. |
| SessionProperties.UdpBoundRunRepeatsFirstPlaintext | shadowsocks/cipherman.py:114-163 | Over any run of long-enough receives, a bound UDP session with an enabled user returns the stored first plaintext for every packet. It records no salt, keeps its user and first plaintext, and grows both counters by that plaintext's length once per packet. |
| SessionProperties.DisabledStreamUserKeepsCipher | shadowsocks/cipherman.py:97-129 | After the disabled-user error on TCP, the session still holds the matched user's cipher. The next decrypt succeeds exactly when that cipher opens the data. |

## Left out

- The cipher algorithms. shadowsocks/ciphers is not part of this model. Its operations are the abstract `Oracle`, and each method's salt and tag sizes are a `classes` map keyed by the five supported method names.
- Round trips such as `decrypt(encrypt(p)) == p` and `unpack(pack(p)) == p`. They are properties of the ciphers, not of this file.
- `pack` and a fresh stream cipher's first `encrypt` are deterministic here. The random salt is not modelled, so two packs of one payload, or the first encryptions of two fresh ciphers of one password, come out equal in the model, whereas the program's differ.
- The Bloom filter is modelled as an exact set of salts. Its false positives would only add spurious replay rejections.
- Peewee persistence. `save()` is not modelled. `User.list_by_port` becomes the session's user sequence. `user_list.first()` is read as the first user of that sequence. `record_traffic(n, n)` is taken to add `n` to each counter.
- Prometheus metrics (`NETWORK_TRANSMIT_BYTES` and the timing decorators), logging and `time.time()`. They only observe.
- `incr_user_tcp_num` and `record_user_ip`. They are one-line delegations to the user record.
- Concurrency. The class-wide Bloom filter is shared by all connections; one sequential session threads the replay set through explicitly.
- CipherMan.New: `access_user` is an index into the user list. This is how `get_cipher_by_port` calls it; a preset user outside the list, and a `user_list` of `None`, are not modelled.
- Python exception types are collapsed into the `Error` datatype. Errors raised by a `None` access user or a `None` cipher class become distinct error values.

=== FILE: cipherman.dfy ===
/**
  The per-connection session of `CipherMan`: it buffers the first packet until
  it is long enough to authenticate, checks its salt against the process-wide
  replay set, finds the user whose key opens it by trial decryption, and then
  encrypts and decrypts for that user while charging its traffic counters.

  Every operation returns the state it leaves behind together with its result,
  also when it fails: the source mutates the session (and the replay set)
  before it raises.
 */
module CipherMan {
  import opened Wrappers
  import opened Crypto
  import opened Users
  import opened TrialSearch

  /** The process-wide set of salts already seen (a Bloom filter in the source). */
  type SaltSet = set<Bytes>

  /** The errors the session raises. */
  datatype Error =
    | EmptyUserList               // `user_list[0]` on an empty list
    | UnsupportedMethod(name: string) // no cipher class for the method
    | NoneHasNoLength             // `len(None)` in `decrypt`
    | RepeatedSalt
    | NoValidUser
    | UserDisabled
    | MacCheckFailed              // the retained stream cipher rejected the data
    | CipherFailure(reason: string) // any other cipher error, propagated unchanged
    | NoAccessUser                // a cipher built from the password of no user

  /**
    The state of one session. Users are referred to by their index in `users`,
    the list of the port's user records that the session updates in place.
   */
  datatype Session = Session(
    transport: Transport,
    users: seq<User>,
    cls: CipherClass,
    firstDataLen: nat,
    accessUser: Option<nat>,
    lastAccessUser: Option<nat>,
    cipher: Option<Cipher>,
    firstData: Option<Bytes>,
    buffer: Bytes)

  /** The state after a decrypting operation, the replay set after it, and its result. */
  datatype Step<+T> = Step(session: Session, seen: SaltSet, result: Result<T, Error>)

  /** The state after an encryption and its result. */
  datatype Sealed = Sealed(session: Session, result: Result<Bytes, Error>)

  /** Bytes needed before the first packet can be authenticated. */
  function FirstDataLen(t: Transport, c: CipherClass): nat
  {
    if t == Tcp then c.saltSize + 2 + c.tagSize else c.saltSize + c.tagSize
  }

  /** What every reachable session satisfies. */
  ghost predicate Valid(s: Session)
  {
    && |s.users| > 0
    && s.firstDataLen == FirstDataLen(s.transport, s.cls)
    && (s.buffer == [] || |s.buffer| < s.firstDataLen)
    && (s.accessUser.Some? ==> s.accessUser.value < |s.users|)
    && (s.lastAccessUser.Some? ==> s.lastAccessUser.value == 0)
    && (s.firstData.Some? ==> s.accessUser.Some?)
    && (s.cipher.Some? ==>
          && s.transport == Tcp
          && s.accessUser.Some?
          && s.cipher.value.password == s.users[s.accessUser.value].password)
  }

  /**
    The constructor: the method comes from the preset user if there is one and
    from the first user otherwise, and the threshold depends on the transport.
   */
  function New(classes: map<string, CipherClass>, users: seq<User>, preset: Option<nat>, t: Transport)
    : (r: Result<Session, Error>)
    requires classes.Keys == SupportMethods
    requires preset.Some? ==> preset.value < |users|
    ensures r == Err(EmptyUserList) <==> preset.None? && |users| == 0
    ensures |users| > 0 ==>
      var m := users[if preset.Some? then preset.value else 0].cipherMethod;
      && (m !in SupportMethods <==> r == Err(UnsupportedMethod(m)))
      && (m in SupportMethods ==> r.Ok? && r.value.cls == classes[m])
    ensures r.Ok? ==> Valid(r.value)
    ensures r.Ok? ==>
      r.value.firstDataLen ==
        (if t == Tcp then r.value.cls.saltSize + 2 + r.value.cls.tagSize
         else r.value.cls.saltSize + r.value.cls.tagSize)
    ensures r.Ok? ==>
      && r.value.transport == t
      && r.value.users == users
      && r.value.accessUser == preset
      && r.value.lastAccessUser.None?
      && r.value.cipher.None?
      && r.value.firstData.None?
      && r.value.buffer == []
  {
    if preset.None? && |users| == 0 then Err(EmptyUserList)
    else
      var m := if preset.Some? then users[preset.value].cipherMethod else users[0].cipherMethod;
      if m !in classes then Err(UnsupportedMethod(m))
      else
        var cls := classes[m];
        Ok(Session(t, users, cls, FirstDataLen(t, cls), preset, None, None, None, []))
  }

  /** `get_cipher_by_port`: a port with exactly one user presets that user. */
  function ForPort(classes: map<string, CipherClass>, users: seq<User>, t: Transport)
    : (r: Result<Session, Error>)
    requires classes.Keys == SupportMethods
    ensures r.Err? <==> |users| == 0 || users[0].cipherMethod !in SupportMethods
    ensures r.Ok? ==> r.value.users == users
    ensures r.Ok? ==> (r.value.accessUser.Some? <==> |users| == 1)
    ensures r.Ok? && |users| == 1 ==> r.value.accessUser == Some(0)
  {
    New(classes, users, if |users| == 1 then Some(0) else None, t)
  }

  /** The first `n` bytes of `blob`, with Python's slicing of a shorter blob. */
  function SaltOf(blob: Bytes, n: nat): (salt: Bytes)
    ensures salt <= blob
    ensures |salt| == if |blob| < n then |blob| else n
  {
    if |blob| <= n then blob else blob[..n]
  }

  /** The user list with user `k`'s ordering moved one past the first user's. */
  function Promote(users: seq<User>, k: nat): (r: seq<User>)
    requires k < |users|
    ensures |r| == |users|
    ensures r[k].accessOrder == users[0].accessOrder + 1
    ensures r[k].(accessOrder := users[k].accessOrder) == users[k]
    ensures forall j :: 0 <= j < |users| && j != k ==> r[j] == users[j]
  {
    users[k := users[k].(accessOrder := users[0].accessOrder + 1)]
  }

  /**
    `_find_access_user`: the replay check, then the trial loop. A fresh salt is
    added to the replay set before any user is tried and stays there whatever
    the trials give. The first user tried is remembered as the last access user.
   */
  function FindAccessUser(o: Oracle, s: Session, seen: SaltSet, blob: Bytes): (r: Step<()>)
    requires Valid(s) && s.accessUser.None?
    ensures Valid(r.session)
    ensures SaltOf(blob, s.cls.saltSize) in seen ==> r == Step(s, seen, Err(RepeatedSalt))
    ensures SaltOf(blob, s.cls.saltSize) !in seen ==>
      && r.seen == seen + {SaltOf(blob, s.cls.saltSize)}
      && r.session.lastAccessUser == Some(0)
      && r.session.(lastAccessUser := s.lastAccessUser, accessUser := None, firstData := s.firstData, cipher := None) == s
      && match Search(o, s.transport, s.users, blob, 0)
         case NoMatch =>
           r.result.Ok? && r.session.accessUser.None? && r.session.firstData == s.firstData
         case Fatal(_, e) =>
           r.result == Err(CipherFailure(e)) && r.session.accessUser.None? && r.session.firstData == s.firstData
         case Matched(k, p) =>
           && r.result.Ok?
           && r.session.accessUser == Some(k)
           && r.session.firstData == Some(p)
           && r.session.cipher == (if s.transport == Tcp then Some(AfterDecrypt(Fresh(s.users[k].password), blob)) else None)
  {
    var salt := SaltOf(blob, s.cls.saltSize);
    if salt in seen then Step(s, seen, Err(RepeatedSalt))
    else
      var seen' := seen + {salt};
      var tried := s.(lastAccessUser := if s.lastAccessUser.None? then Some(0) else s.lastAccessUser);
      match Search(o, s.transport, s.users, blob, 0)
      case NoMatch => Step(tried, seen', Ok(()))
      case Fatal(_, e) => Step(tried, seen', Err(CipherFailure(e)))
      case Matched(k, p) =>
        var kept := if s.transport == Tcp then Some(AfterDecrypt(Fresh(s.users[k].password), blob)) else s.cipher;
        Step(tried.(accessUser := Some(k), firstData := Some(p), cipher := kept), seen', Ok(()))
  }

  /**
    `_init_cipher_and_decrypt_first_data`: the threshold gate, then (for a
    session without a user) identification, then the checks after a match. It
    yields `None` when it buffers, and otherwise the stored first plaintext.
   */
  function InitCipherAndDecryptFirstData(o: Oracle, s: Session, seen: SaltSet, data: Bytes)
    : (r: Step<Option<Bytes>>)
    requires Valid(s)
    ensures Valid(r.session)
    ensures r.session.transport == s.transport && |r.session.users| == |s.users|
    ensures |s.buffer| + |data| < s.firstDataLen ==>
      r == Step(s.(buffer := s.buffer + data), seen, Ok(None))
    ensures |s.buffer| + |data| >= s.firstDataLen ==>
      r.session.buffer == [] && seen <= r.seen
    ensures r.result.Ok? && r.result.value.Some? ==>
      && r.session.accessUser.Some?
      && r.session.users[r.session.accessUser.value].enable
      && r.result.value == r.session.firstData
  {
    if |s.buffer| + |data| < s.firstDataLen then Step(s.(buffer := s.buffer + data), seen, Ok(None))
    else
      var blob := s.buffer + data;
      var s0 := s.(buffer := []);
      var f := if s0.accessUser.None? then FindAccessUser(o, s0, seen, blob) else Step(s0, seen, Ok(()));
      if f.result.Err? then Step(f.session, f.seen, Err(f.result.error))
      else
        var s1 := f.session;
        match s1.accessUser
        case None => Step(s1, f.seen, Err(NoValidUser))
        case Some(k) =>
          if !s1.users[k].enable then Step(s1, f.seen, Err(UserDisabled))
          else
            var s2 :=
              if s1.lastAccessUser.Some? && s1.lastAccessUser.value != k
              then s1.(users := Promote(s1.users, k))
              else s1;
            Step(s2, f.seen, Ok(s2.firstData))
  }

  /**
    `_record_user_traffic`: when a user is bound, `n` bytes are charged to both
    of its counters; nothing else changes.
   */
  function RecordUserTraffic(s: Session, n: nat): (r: Session)
    requires Valid(s)
    ensures Valid(r)
    ensures r.(users := s.users) == s
    ensures |r.users| == |s.users|
    ensures s.accessUser.Some? ==>
      var k := s.accessUser.value;
      && r.users[k].upload == s.users[k].upload + n
      && r.users[k].download == s.users[k].download + n
      && r.users[k].(upload := s.users[k].upload, download := s.users[k].download) == s.users[k]
    ensures forall j :: 0 <= j < |s.users| && s.accessUser != Some(j) ==> r.users[j] == s.users[j]
  {
    match s.accessUser
    case None => s
    case Some(k) => s.(users := s.users[k := RecordTraffic(s.users[k], n)])
  }

  /**
    `encrypt`: the plaintext length is charged first. UDP builds a fresh cipher
    and packs on every call; TCP creates its stream cipher only when it has
    none and reuses it after that.
   */
  function Encrypt(o: Oracle, s: Session, data: Bytes): (r: Sealed)
    requires Valid(s)
    ensures Valid(r.session)
    ensures r.session.users == RecordUserTraffic(s, |data|).users
    ensures r.session.(users := s.users, cipher := s.cipher) == s
    ensures s.accessUser.None? ==> r == Sealed(s, Err(NoAccessUser))
    ensures s.accessUser.Some? && s.transport == Udp ==>
      && r.result == Ok(o.pack(s.users[s.accessUser.value].password, data))
      && r.session.cipher.None?
    ensures s.transport == Tcp && s.cipher.Some? ==>
      && r.result == Ok(o.encrypt(s.cipher.value, data))
      && r.session.cipher == Some(AfterEncrypt(s.cipher.value, data))
    ensures s.transport == Tcp && s.cipher.None? && s.accessUser.Some? ==>
      var c := Fresh(s.users[s.accessUser.value].password);
      && r.result == Ok(o.encrypt(c, data))
      && r.session.cipher == Some(AfterEncrypt(c, data))
  {
    var s1 := RecordUserTraffic(s, |data|);
    if s.transport == Udp then
      match s1.accessUser
      case None => Sealed(s1, Err(NoAccessUser))
      case Some(k) => Sealed(s1, Ok(o.pack(s1.users[k].password, data)))
    else
      match s1.cipher
      case Some(c) => Sealed(s1.(cipher := Some(AfterEncrypt(c, data))), Ok(o.encrypt(c, data)))
      case None =>
        match s1.accessUser
        case None => Sealed(s1, Err(NoAccessUser))
        case Some(k) =>
          var c := Fresh(s1.users[k].password);
          Sealed(s1.(cipher := Some(AfterEncrypt(c, data))), Ok(o.encrypt(c, data)))
  }

  /**
    `decrypt`: without a stream cipher the data goes through the first-packet
    path and the returned plaintext's length is charged; a `None` from that
    path makes `len` raise. With a stream cipher the ciphertext length is
    charged and the retained cipher decrypts.
   */
  function Decrypt(o: Oracle, s: Session, seen: SaltSet, data: Bytes): (r: Step<Bytes>)
    requires Valid(s)
    ensures Valid(r.session)
    ensures seen <= r.seen
    ensures r.session.transport == s.transport && |r.session.users| == |s.users|
    ensures s.cipher.None? && |s.buffer| + |data| < s.firstDataLen ==>
      r == Step(s.(buffer := s.buffer + data), seen, Err(NoneHasNoLength))
    ensures s.cipher.Some? ==>
      var c := s.cipher.value;
      && r.seen == seen
      && r.session.(cipher := s.cipher) == RecordUserTraffic(s, |data|)
      && (r.result.Ok? <==> o.decrypt(c, data).Opened?)
      && r.session.cipher == Some(AfterDecrypt(c, data))
      && (r.result.Ok? ==> r.result.value == o.decrypt(c, data).plain)
  {
    match s.cipher
    case None =>
      var i := InitCipherAndDecryptFirstData(o, s, seen, data);
      if i.result.Err? then Step(i.session, i.seen, Err(i.result.error))
      else if i.result.value.None? then Step(i.session, i.seen, Err(NoneHasNoLength))
      else
        var p := i.result.value.value;
        Step(RecordUserTraffic(i.session, |p|), i.seen, Ok(p))
    case Some(c) =>
      var s1 := RecordUserTraffic(s, |data|).(cipher := Some(AfterDecrypt(c, data)));
      match o.decrypt(c, data)
      case Opened(p) => Step(s1, seen, Ok(p))
      case MacFailed => Step(s1, seen, Err(MacCheckFailed))
      case OtherFailure(e) => Step(s1, seen, Err(CipherFailure(e)))
  }
}

=== FILE: crypto.dfy ===
/**
  The cipher capability the session manager consumes, kept abstract.

  The real ciphers (AEAD and stream) are not part of this model: their
  operations are an `Oracle` of total functions supplied by the caller, and a
  live stream cipher is represented by the password it was built from together
  with the log of every encrypt and decrypt call it has served, in order. The
  oracle receives that log, so a cipher's output may depend on all the bytes it
  has processed before, as a nonce or keystream position does.
 */
module Crypto {

  type Byte = b: int | 0 <= b < 0x100
  type Bytes = seq<Byte>

  /** The transport flag: TCP sessions keep one stream cipher, UDP packets are self-contained. */
  datatype Transport = Tcp | Udp

  /** The two constants of a cipher class that the session manager reads. */
  datatype CipherClass = CipherClass(saltSize: nat, tagSize: nat)

  /** The method names the manager's table of cipher classes knows. */
  const SupportMethods: set<string> :=
    {"none", "aes-256-cfb", "aes-128-gcm", "aes-256-gcm", "chacha20-ietf-poly1305"}

  /** One call a live cipher has served, with the bytes it was handed. */
  datatype Use = Encrypted(data: Bytes) | Decrypted(data: Bytes)

  /** A live cipher instance: its key material and the calls it has served, oldest first. */
  datatype Cipher = Cipher(password: string, log: seq<Use>)

  /** A cipher freshly built from a password, as `cipher_cls(password)` does. */
  function Fresh(password: string): Cipher
  {
    Cipher(password, [])
  }

  /** The state of a stream cipher after it has been asked to decrypt `data`, whatever the outcome. */
  function AfterDecrypt(c: Cipher, data: Bytes): Cipher
  {
    c.(log := c.log + [Decrypted(data)])
  }

  /** The state of a stream cipher after it has encrypted `data`. */
  function AfterEncrypt(c: Cipher, data: Bytes): Cipher
  {
    c.(log := c.log + [Encrypted(data)])
  }

  /**
    The outcome of an authenticated decryption: the plaintext, the specific
    "MAC check failed" error, or any other error.
   */
  datatype Trial = Opened(plain: Bytes) | MacFailed | OtherFailure(reason: string)

  /**
    The operations of a cipher class: stream `decrypt`/`encrypt` on a live
    cipher, and datagram `unpack`/`pack` on a cipher freshly built from a
    password (each datagram carries its own salt).
   */
  datatype Oracle = Oracle(
    decrypt: (Cipher, Bytes) -> Trial,
    encrypt: (Cipher, Bytes) -> Bytes,
    unpack: (string, Bytes) -> Trial,
    pack: (string, Bytes) -> Bytes)
}

=== FILE: properties.dfy ===
/**
  Properties of whole sessions: identification of the first packet, replay
  rejection across sessions, buffering of short input, traffic accounting and
  the lifetime of the stream cipher over a sequence of calls.
 */
module SessionProperties {
  import opened Wrappers
  import opened Crypto
  import opened Users
  import opened TrialSearch
  import opened CipherMan

  /** One call the I/O loop makes on a session. */
  datatype Call = Send(data: Bytes) | Receive(data: Bytes)

  /** The state after a sequence of calls, the replay set after it, and each call's result. */
  datatype Run = Run(session: Session, seen: SaltSet, results: seq<Result<Bytes, Error>>)

  /** One call: `encrypt` for a send, `decrypt` for a receive. */
  function Apply(o: Oracle, s: Session, seen: SaltSet, call: Call): (r: Step<Bytes>)
    requires Valid(s)
    ensures Valid(r.session)
    ensures seen <= r.seen
    ensures |r.session.users| == |s.users|
  {
    match call
    case Send(d) =>
      var e := Encrypt(o, s, d);
      Step(e.session, seen, e.result)
    case Receive(d) => Decrypt(o, s, seen, d)
  }

  /** The calls applied in order, each to the state the previous one left. */
  function Execute(o: Oracle, s: Session, seen: SaltSet, calls: seq<Call>): (r: Run)
    requires Valid(s)
    ensures Valid(r.session)
    ensures |r.results| == |calls|
    ensures seen <= r.seen
    ensures |r.session.users| == |s.users|
    decreases |calls|
  {
    if calls == [] then Run(s, seen, [])
    else
      var st := Apply(o, s, seen, calls[0]);
      var rest := Execute(o, st.session, st.seen, calls[1..]);
      Run(rest.session, rest.seen, [st.result] + rest.results)
  }

  /** The bytes the calls hand to the session, in order. */
  function Payload(calls: seq<Call>): Bytes
  {
    if calls == [] then [] else calls[0].data + Payload(calls[1..])
  }

  /** The log entries the calls add to a retained stream cipher, in order. */
  function Uses(calls: seq<Call>): seq<Use>
  {
    if calls == [] then []
    else
      var u := match calls[0] case Send(d) => Encrypted(d) case Receive(d) => Decrypted(d);
      [u] + Uses(calls[1..])
  }

  /**
    Identification of the first packet of a session with no user: the replay
    check comes first; a fresh salt is remembered whatever follows; then the
    trial loop decides, a disabled user gets no plaintext, and a user found
    after the first one tried has its ordering promoted past the first user's.
   */
  lemma IdentifyOutcome(o: Oracle, s: Session, seen: SaltSet, data: Bytes)
    requires Valid(s) && s.accessUser.None?
    requires |s.buffer| + |data| >= s.firstDataLen
    ensures
      var blob := s.buffer + data;
      var salt := SaltOf(blob, s.cls.saltSize);
      var r := Decrypt(o, s, seen, data);
      && r.session.buffer == []
      && (salt in seen ==> r == Step(s.(buffer := []), seen, Err(RepeatedSalt)))
      && (salt !in seen ==>
            && r.seen == seen + {salt}
            && match Search(o, s.transport, s.users, blob, 0)
               case NoMatch =>
                 r.result == Err(NoValidUser) && r.session.accessUser.None? && r.session.users == s.users
               case Fatal(_, e) =>
                 r.result == Err(CipherFailure(e)) && r.session.accessUser.None? && r.session.users == s.users
               case Matched(k, p) =>
                 && r.session.accessUser == Some(k)
                 && r.session.firstData == Some(p)
                 && r.session.cipher ==
                      (if s.transport == Tcp then Some(AfterDecrypt(Fresh(s.users[k].password), blob)) else None)
                 && (!s.users[k].enable ==> r.result == Err(UserDisabled) && r.session.users == s.users)
                 && (s.users[k].enable ==>
                       && r.result == Ok(p)
                       && r.session.users[k].upload == s.users[k].upload + |p|
                       && r.session.users[k].download == s.users[k].download + |p|
                       && r.session.users[k].accessOrder ==
                            (if k == 0 then s.users[k].accessOrder else s.users[0].accessOrder + 1)
                       && r.session.users[k].password == s.users[k].password
                       && r.session.users[k].enable
                       && forall j :: 0 <= j < |s.users| && j != k ==> r.session.users[j] == s.users[j]))
  {
  }

  /**
    The same salt is never accepted twice: once one session has taken a blob
    to identification, any session whose blob starts with the same salt is
    rejected before a single user is tried, whatever the first call returned.
   */
  lemma SaltNeverAcceptedTwice(o: Oracle, s1: Session, s2: Session, seen: SaltSet, d1: Bytes, d2: Bytes)
    requires Valid(s1) && s1.accessUser.None? && |s1.buffer| + |d1| >= s1.firstDataLen
    requires Valid(s2) && s2.accessUser.None? && |s2.buffer| + |d2| >= s2.firstDataLen
    requires SaltOf(s2.buffer + d2, s2.cls.saltSize) == SaltOf(s1.buffer + d1, s1.cls.saltSize)
    ensures SaltOf(s1.buffer + d1, s1.cls.saltSize) in Decrypt(o, s1, seen, d1).seen
    ensures
      var r1 := Decrypt(o, s1, seen, d1);
      Decrypt(o, s2, r1.seen, d2) == Step(s2.(buffer := []), r1.seen, Err(RepeatedSalt))
  {
  }

  /**
    Input that stays below the threshold is only buffered, over any number of
    calls: no salt is recorded, no user is bound, and each call raises on the
    `None` the gate returns.
   */
  lemma {:induction false} ShortInputOnlyBuffers(o: Oracle, s: Session, seen: SaltSet, calls: seq<Call>)
    requires Valid(s) && s.cipher.None?
    requires forall i :: 0 <= i < |calls| ==> calls[i].Receive?
    requires |s.buffer| + |Payload(calls)| < s.firstDataLen
    ensures
      var r := Execute(o, s, seen, calls);
      && r.session == s.(buffer := s.buffer + Payload(calls))
      && r.seen == seen
      && forall i :: 0 <= i < |r.results| ==> r.results[i] == Err(NoneHasNoLength)
    decreases |calls|
  {
    if calls != [] {
      var d := calls[0].data;
      var s1 := s.(buffer := s.buffer + d);
      assert Apply(o, s, seen, calls[0]) == Step(s1, seen, Err(NoneHasNoLength));
      assert |s1.buffer| + |Payload(calls[1..])| < s1.firstDataLen;
      ShortInputOnlyBuffers(o, s1, seen, calls[1..]);
      assert s1.buffer + Payload(calls[1..]) == s.buffer + Payload(calls);
    }
  }

  /**
    Once a stream cipher is retained, every call charges the bytes handed to it
    (the plaintext of a send, the ciphertext of a receive, whether or not it
    decrypts) to both counters of the bound user, and to no other user.
   */
  lemma {:induction false} TrafficIsSumOfPayloads(o: Oracle, s: Session, seen: SaltSet, calls: seq<Call>)
    requires Valid(s) && s.cipher.Some?
    ensures
      var r := Execute(o, s, seen, calls);
      var k := s.accessUser.value;
      && r.session.accessUser == s.accessUser
      && r.session.cipher.Some?
      && r.session.users[k].upload == s.users[k].upload + |Payload(calls)|
      && r.session.users[k].download == s.users[k].download + |Payload(calls)|
      && r.session.users[k].password == s.users[k].password
      && forall j :: 0 <= j < |s.users| && j != k ==> r.session.users[j] == s.users[j]
    decreases |calls|
  {
    if calls != [] {
      var st := Apply(o, s, seen, calls[0]);
      var k := s.accessUser.value;
      assert st.session.accessUser == s.accessUser && st.session.cipher.Some?;
      assert st.session.users == RecordUserTraffic(s, |calls[0].data|).users;
      TrafficIsSumOfPayloads(o, st.session, st.seen, calls[1..]);
    }
  }

  /**
    The retained stream cipher is never replaced or reset: it keeps its
    password, and every call of the run, failed decrypts included, is appended
    to its log in order.
   */
  lemma {:induction false} StreamCipherLogsEveryCall(o: Oracle, s: Session, seen: SaltSet, calls: seq<Call>)
    requires Valid(s) && s.cipher.Some?
    ensures
      var c := s.cipher.value;
      Execute(o, s, seen, calls).session.cipher == Some(Cipher(c.password, c.log + Uses(calls)))
    decreases |calls|
  {
    if calls != [] {
      var st := Apply(o, s, seen, calls[0]);
      StreamCipherLogsEveryCall(o, st.session, st.seen, calls[1..]);
      var c := s.cipher.value;
      var u := Uses(calls)[0];
      assert st.session.cipher == Some(Cipher(c.password, c.log + [u])) by {
        match calls[0]
        case Send(d) => assert Encrypt(o, s, d).session.cipher == Some(AfterEncrypt(c, d));
        case Receive(d) => assert Decrypt(o, s, seen, d).session.cipher == Some(AfterDecrypt(c, d));
      }
      assert c.log + [u] + Uses(calls[1..]) == c.log + Uses(calls);
      assert Execute(o, s, seen, calls).session == Execute(o, st.session, st.seen, calls[1..]).session;
    } else {
      assert s.cipher.value.log + Uses(calls) == s.cipher.value.log;
    }
  }

  /**
    As written, a session whose user was preset (a port with a single user)
    never returns plaintext from a run of receives while it has no stream
    cipher: the identification that would set the first plaintext is skipped,
    so each `decrypt` ends in `len(None)` or in the disabled-user error.
   */
  lemma {:induction false} PresetUserReceivesAlwaysFail(o: Oracle, s: Session, seen: SaltSet, calls: seq<Call>)
    requires Valid(s) && s.accessUser.Some? && s.cipher.None? && s.firstData.None?
    requires forall i :: 0 <= i < |calls| ==> calls[i].Receive?
    ensures
      var r := Execute(o, s, seen, calls);
      && r.seen == seen
      && forall i :: 0 <= i < |r.results| ==> r.results[i].Err?
    decreases |calls|
  {
    if calls != [] {
      var st := Apply(o, s, seen, calls[0]);
      assert st.result.Err? && st.seen == seen;
      assert st.session.accessUser.Some? && st.session.cipher.None? && st.session.firstData.None?;
      PresetUserReceivesAlwaysFail(o, st.session, st.seen, calls[1..]);
    }
  }

  /** On a port with one user, every call of a run of receives fails. */
  lemma SingleUserPortReceivesAlwaysFail(
    classes: map<string, CipherClass>, u: User, t: Transport,
    o: Oracle, seen: SaltSet, calls: seq<Call>)
    requires classes.Keys == SupportMethods
    requires u.cipherMethod in SupportMethods
    requires forall i :: 0 <= i < |calls| ==> calls[i].Receive?
    ensures ForPort(classes, [u], t).Ok?
    ensures forall i :: 0 <= i < |calls| ==> Execute(o, ForPort(classes, [u], t).value, seen, calls).results[i].Err?
  {
    PresetUserReceivesAlwaysFail(o, ForPort(classes, [u], t).value, seen, calls);
  }

  /**
    As written, a session with a preset user never consults the replay set: a
    long-enough first packet fails on the disabled-user check or on `len(None)`,
    never as a replayed salt, whatever salts were seen before.
   */
  lemma PresetUserSkipsReplayCheck(o: Oracle, s: Session, seen: SaltSet, data: Bytes)
    requires Valid(s) && s.accessUser.Some? && s.cipher.None? && s.firstData.None?
    requires |s.buffer| + |data| >= s.firstDataLen
    ensures
      var r := Decrypt(o, s, seen, data);
      && r.seen == seen
      && r.session.buffer == []
      && r.result == (if s.users[s.accessUser.value].enable then Err(NoneHasNoLength) else Err(UserDisabled))
  {
  }

  /**
    As written, an `encrypt` on a preset TCP session creates the stream cipher
    from the preset user's password, and from then on a `decrypt` goes to that
    cipher: the receive succeeds exactly when the cipher, one encryption in,
    opens the data.
   */
  lemma PresetTcpDecryptsAfterSend(o: Oracle, s: Session, seen: SaltSet, d1: Bytes, d2: Bytes)
    requires Valid(s) && s.transport == Tcp && s.accessUser.Some? && s.cipher.None?
    ensures
      var c := AfterEncrypt(Fresh(s.users[s.accessUser.value].password), d1);
      var r := Execute(o, s, seen, [Send(d1), Receive(d2)]);
      && r.results[0] == Ok(o.encrypt(Fresh(s.users[s.accessUser.value].password), d1))
      && (r.results[1].Ok? <==> o.decrypt(c, d2).Opened?)
      && (r.results[1].Ok? ==> r.results[1].value == o.decrypt(c, d2).plain)
  {
  }

  /**
    As written, a UDP session never keeps a cipher, so once its user is bound
    every long-enough packet goes back through the checks after
    identification. For an enabled user it returns the plaintext of the first
    packet again, charges that plaintext's length to both of the user's
    counters once more, and reapplies the promotion past the first user when a
    user was tried before and the bound user is not the first one. A disabled
    user gets the disabled-user error and nothing but the buffer changes. The
    session stays bound to the same user with the same first plaintext.
   */
  lemma UdpRepeatsFirstPlaintext(o: Oracle, s: Session, seen: SaltSet, data: Bytes)
    requires Valid(s) && s.transport == Udp
    requires s.accessUser.Some? && s.firstData.Some?
    requires |s.buffer| + |data| >= s.firstDataLen
    ensures
      var k := s.accessUser.value;
      var n := |s.firstData.value|;
      var r := Decrypt(o, s, seen, data);
      && r.seen == seen
      && r.session.(users := s.users) == s.(buffer := [])
      && |r.session.users| == |s.users|
      && (!s.users[k].enable ==> r.result == Err(UserDisabled) && r.session.users == s.users)
      && (s.users[k].enable ==>
            && r.result == Ok(s.firstData.value)
            && r.session.users[k].upload == s.users[k].upload + n
            && r.session.users[k].download == s.users[k].download + n
            && r.session.users[k].accessOrder ==
                 (if s.lastAccessUser == Some(0) && k != 0 then s.users[0].accessOrder + 1 else s.users[k].accessOrder)
            && r.session.users[k].password == s.users[k].password
            && r.session.users[k].enable
            && forall j :: 0 <= j < |s.users| && j != k ==> r.session.users[j] == s.users[j])
  {
  }

  /**
    Over a whole run of long-enough packets, a bound UDP session with an
    enabled user answers every one with the first packet's plaintext, records
    no salt, stays bound to that user with that plaintext, and charges the
    plaintext's length once per packet.
   */
  lemma {:induction false} UdpBoundRunRepeatsFirstPlaintext(o: Oracle, s: Session, seen: SaltSet, calls: seq<Call>)
    requires Valid(s) && s.transport == Udp
    requires s.accessUser.Some? && s.firstData.Some? && s.users[s.accessUser.value].enable
    requires forall i :: 0 <= i < |calls| ==> calls[i].Receive? && |calls[i].data| >= s.firstDataLen
    ensures
      var k := s.accessUser.value;
      var n := |s.firstData.value|;
      var r := Execute(o, s, seen, calls);
      && r.seen == seen
      && (forall i :: 0 <= i < |r.results| ==> r.results[i] == Ok(s.firstData.value))
      && r.session.accessUser == s.accessUser
      && r.session.firstData == s.firstData
      && r.session.cipher.None?
      && r.session.users[k].enable
      && r.session.users[k].upload == s.users[k].upload + |calls| * n
      && r.session.users[k].download == s.users[k].download + |calls| * n
    decreases |calls|
  {
    if calls != [] {
      var k := s.accessUser.value;
      var n := |s.firstData.value|;
      var st := Apply(o, s, seen, calls[0]);
      UdpRepeatsFirstPlaintext(o, s, seen, calls[0].data);
      UdpBoundRunRepeatsFirstPlaintext(o, st.session, st.seen, calls[1..]);
      var rest := Execute(o, st.session, st.seen, calls[1..]);
      assert Execute(o, s, seen, calls).results == [st.result] + rest.results;
      assert s.users[k].upload + n + (|calls| - 1) * n == s.users[k].upload + |calls| * n;
      assert s.users[k].download + n + (|calls| - 1) * n == s.users[k].download + |calls| * n;
    }
  }

  /**
    As written, a TCP session keeps the trial's cipher even when the matched
    user is disabled, so a following `decrypt` goes straight to that cipher and
    the `enable` check is not made again.
   */
  lemma DisabledStreamUserKeepsCipher(o: Oracle, s: Session, seen: SaltSet, d1: Bytes, d2: Bytes)
    requires Valid(s) && s.transport == Tcp && s.accessUser.None?
    requires |s.buffer| + |d1| >= s.firstDataLen
    requires Decrypt(o, s, seen, d1).result == Err(UserDisabled)
    ensures
      var r1 := Decrypt(o, s, seen, d1);
      && r1.session.cipher.Some?
      && !r1.session.users[r1.session.accessUser.value].enable
      && (Decrypt(o, r1.session, r1.seen, d2).result.Ok? <==> o.decrypt(r1.session.cipher.value, d2).Opened?)
  {
  }
}

=== FILE: trial.dfy ===
/**
  The trial-decryption loop of `_find_access_user`: users are tried in list
  order, a "MAC check failed" moves on to the next user, any other failure
  stops the loop, and the first success wins.
 */
module TrialSearch {
  import opened Crypto
  import opened Users

  /** One trial: a cipher freshly built from the user's password, applied to the blob. */
  function TryUser(o: Oracle, t: Transport, u: User, blob: Bytes): Trial
  {
    if t == Tcp then o.decrypt(Fresh(u.password), blob) else o.unpack(u.password, blob)
  }

  /** Every user with an index in `[lo, hi)` rejected the blob with a MAC failure. */
  ghost predicate MacFailsOn(o: Oracle, t: Transport, users: seq<User>, blob: Bytes, lo: nat, hi: nat)
  {
    hi <= |users| &&
    forall j :: lo <= j < hi ==> TryUser(o, t, users[j], blob).MacFailed?
  }

  /** How the loop ended: a user matched, nobody matched, or a trial failed fatally. */
  datatype Outcome = Matched(index: nat, plain: Bytes) | NoMatch | Fatal(index: nat, reason: string)

  /** The loop over `users[from..]`, as a reference definition. */
  function Search(o: Oracle, t: Transport, users: seq<User>, blob: Bytes, from: nat): (r: Outcome)
    requires from <= |users|
    ensures r.Matched? ==>
      from <= r.index < |users| && TryUser(o, t, users[r.index], blob) == Opened(r.plain)
    ensures r.Fatal? ==>
      from <= r.index < |users| && TryUser(o, t, users[r.index], blob) == OtherFailure(r.reason)
    ensures r.NoMatch? ==> MacFailsOn(o, t, users, blob, from, |users|)
    ensures !r.NoMatch? ==> MacFailsOn(o, t, users, blob, from, r.index)
    decreases |users| - from
  {
    if from == |users| then NoMatch
    else match TryUser(o, t, users[from], blob)
      case Opened(p) => Matched(from, p)
      case MacFailed => Search(o, t, users, blob, from + 1)
      case OtherFailure(e) => Fatal(from, e)
  }

  /** The number of users the loop tried before it stopped (`cnt` in the source). */
  function Attempts(r: Outcome, n: nat): nat
  {
    if r.NoMatch? then n else r.index + 1
  }

  /**
    Converse of `Search`'s contract: a user preceded only by MAC failures
    decides the outcome, so the loop cannot stop earlier or later than that user.
   */
  lemma SearchStopsAtFirstNonMacFailure(
    o: Oracle, t: Transport, users: seq<User>, blob: Bytes, from: nat, k: nat)
    requires from <= k < |users|
    requires MacFailsOn(o, t, users, blob, from, k)
    requires !TryUser(o, t, users[k], blob).MacFailed?
    ensures TryUser(o, t, users[k], blob).Opened? ==>
      Search(o, t, users, blob, from) == Matched(k, TryUser(o, t, users[k], blob).plain)
    ensures TryUser(o, t, users[k], blob).OtherFailure? ==>
      Search(o, t, users, blob, from) == Fatal(k, TryUser(o, t, users[k], blob).reason)
  {
  }

  /** Nobody matches exactly when every user rejects the blob with a MAC failure. */
  lemma NoMatchIffAllMacFail(o: Oracle, t: Transport, users: seq<User>, blob: Bytes, from: nat)
    requires from <= |users|
    ensures Search(o, t, users, blob, from).NoMatch? <==> MacFailsOn(o, t, users, blob, from, |users|)
  {
  }

  /**
    The loop as the source writes it, with its counter: `cnt` is incremented
    before each trial, and the loop leaves at the first trial that does not fail
    with a MAC error.
   */
  method FindByTrial(o: Oracle, t: Transport, users: seq<User>, blob: Bytes) returns (r: Outcome, cnt: nat)
    ensures r == Search(o, t, users, blob, 0)
    ensures cnt == Attempts(r, |users|)
    ensures cnt <= |users|
  {
    cnt := 0;
    var i := 0;
    while i < |users|
      invariant i <= |users|
      invariant cnt == i
      invariant Search(o, t, users, blob, 0) == Search(o, t, users, blob, i)
    {
      cnt := cnt + 1;
      match TryUser(o, t, users[i], blob)
      case Opened(p) =>
        return Matched(i, p), cnt;
      case OtherFailure(e) =>
        return Fatal(i, e), cnt;
      case MacFailed =>
        i := i + 1;
    }
    r := NoMatch;
  }
}

=== FILE: users.dfy ===
/** The user records a session reads and updates. */
module Users {

  /**
    One user of a port: the password its key derives from, its cipher method,
    whether it may connect, the ordering field that biases the trial order, and
    its traffic counters.
   */
  datatype User = User(
    password: string,
    cipherMethod: string,
    enable: bool,
    accessOrder: int,
    upload: nat,
    download: nat)

  /** `record_traffic(n, n)`: both counters grow by `n`. */
  function RecordTraffic(u: User, n: nat): User
  {
    u.(upload := u.upload + n, download := u.download + n)
  }
}

=== FILE: wrappers.dfy ===
/** Failure-carrying datatypes shared by the session model. */
module Wrappers {

  /** A value that may be absent; stands for Python's `None`. */
  datatype Option<+T> = None | Some(value: T)

  /** Either a value or the error an operation raised. */
  datatype Result<+T, +E> = Ok(value: T) | Err(error: E)
}
